=== FILE: README.md ===
# foamLookupEntry in Dafny

foamLookupEntry is an OpenFOAM utility. It reads a dictionary, from the file
given by `-dict` or from standard input, and looks up the key given by `-key`.
A key may be dotted: `a.b.c` names keyword `c` in sub-dictionary `b` of
sub-dictionary `a`. On success it prints the entry and exits with 0. A missing
`-key` exits with 1. A `-dict` file that does not exist exits with 2. A key
that is not found exits with 4, and a sub-dictionary segment that is not found
exits with 8. `-batch` suppresses the diagnostics on standard error.

This project models that lookup over an immutable dictionary tree and proves
its properties:

- `wrappers.dfy`: `Option`.
- `dictionaries.dfy` (module `Dictionaries`): the tree. An `Entry` is a token
  `Stream` or a `Dict`. A `Dictionary` is a name (the empty string means
  unnamed) plus an ordered sequence of `Binding`s. The module defines the
  `WellFormed` invariant: keywords are unique in every dictionary and streams
  are non-empty. It also models the library calls the program makes (`found`,
  `isDict`, `subDictPtr`, `lookupEntry`) and `writeEntry`, whose output is an
  abstract `Rendering`.
- `key_path.dfy` (module `KeyPath`): the string operations the program uses
  (`count`, `find`, `s(n)`, `s(i, len)`), splitting a dotted key into segments
  plus a terminal keyword, and joining them back.
- `lookup.dfy` (module `Lookup`): `lookupPlainKeyword` and `lookupDottedKeyword`.
  `LookupDotted` is the reference definition: split the key, descend, then look
  up the terminal keyword. `LookupDottedKeyword` is the program's loop, proved
  equal to it.
- `driver.dfy` (module `Driver`): `main` over abstract inputs. These are whether
  `-key` was given, the dictionary source and whether its file exists, the
  batch flag, and the parsed tree.

The usage note for `-batch` (foamLookupEntry.C:20) reads "Fail silently
printing empty string and positive return value". The code prints that empty
line only when the dictionary file is missing (foamLookupEntry.C:76), and it
prints it in batch mode and outside it alike. Every other failure prints
nothing on standard output. The model follows the code, and `Main` and
`ExitStatusPrecedence` state this behaviour.

A missing `-key` makes the program call `printUsage` outside batch mode
(foamLookupEntry.C:61). The library writes the usage text through `Info`, which
is standard output, so the model records it as the standard-output value
`UsageText`. No diagnostic goes to standard error in that case.

The code never checks that the segments of a dotted key are non-empty. A key
such as `a..b` or `.a` is split like any other key, and its empty segment is
looked up as the empty keyword. The model does the same.

Any key that contains a dot goes to the dotted lookup (foamLookupEntry.C:92).
So the binding of a keyword that itself contains a dot is never consulted.
`{ a.b 5; }` with key `a.b` looks for a sub-dictionary `a` and exits with 8,
and `{ a.b 5; a { b 6; } }` with key `a.b` prints 6, not 5.
`Lookup.DottedKeywordNotConsulted`, `Lookup.DottedKeywordUnreachable`,
`Lookup.DottedKeywordExample` and `Lookup.DottedKeywordShadowedExample` state
this, and `Lookup.PlainKeyFound` states that every dot-free keyword is
reachable.

## Model

| member | source | states |
|---|---|---|
| Dictionaries.Found | foamLookupEntry.C:105 | `found` holds exactly when some binding carries the keyword; `FindStored` states which entry it then stands for |
| Dictionaries.IsDict | foamLookupEntry.C:136 | `isDict` implies `found`, and in a dictionary with unique keywords it holds exactly when a sub-dictionary is stored under the keyword; `FirstFailure` and `StuckAtFirstFailure` state its effect on the descent |
| Dictionaries.Render | foamLookupEntry.C:165-176 | `writeEntry` prints a dictionary exactly for a dictionary entry, and otherwise a token taken from the stream; `SuccessPrintsStoredEntry` states which entry is rendered |
| Dictionaries.Find | foamLookupEntry.C:105 | the keyword is found exactly when some binding carries it, and what is found is a stored binding |
| Dictionaries.FindStored | foamLookupEntry.C:105-119 | in a dictionary with unique keywords, a lookup returns an entry iff that exact binding is stored: no false "not found" and no other entry |
| Dictionaries.LookupEntry | foamLookupEntry.C:119 | the entry looked up for a present keyword is the one stored under it, and it is well-formed in a well-formed tree |
| Dictionaries.SubDict | foamLookupEntry.C:136-138 | the sub-dictionary descended into is the one stored under the segment, and it keeps the tree invariant |
| KeyPath.Count | foamLookupEntry.C:92 | the dot count is zero exactly when the key has no dot, and never exceeds the key's length |
| KeyPath.IndexOf | foamLookupEntry.C:132 | `find` returns the position of the first occurrence: the character is there, and not before it |
| KeyPath.Take | foamLookupEntry.C:133 | `s(n)` is a prefix of the string of length n, or the whole string when it is shorter; `SplitFirst` states what the cut yields |
| KeyPath.Substr | foamLookupEntry.C:134 | `s(i, len)` holds the characters starting at i, at most len of them, stopping at the end of the string; `SplitFirst` states what the cut yields |
| KeyPath.SplitFirst | foamLookupEntry.C:132-134 | one loop turn cuts the key into a dot-free segment, the dot, and the rest, and the rest has one dot fewer |
| KeyPath.Split | foamLookupEntry.C:130-134 | the loop makes one descent step per dot in the key, and neither the segments nor the terminal keyword contain a dot |
| KeyPath.Join | foamLookupEntry.C:15-17 | joining a dot-free path puts exactly one dot per segment into the key; `JoinSplit` and `SplitJoin` state that it inverts `Split` |
| KeyPath.JoinSplit | foamLookupEntry.C:130-134 | joining the segments and the terminal keyword with dots gives back the original key |
| KeyPath.SplitJoin | foamLookupEntry.C:130-134 | splitting the dotted form of any dot-free path gives back that path |
| Lookup.Descend | foamLookupEntry.C:130-148 | a descent that succeeds ends in a well-formed dictionary, and one that fails names one of the segments |
| Lookup.DescendAppend | foamLookupEntry.C:130-148 | descending through p then q is descending through p, then through q from where p ended, unless p already failed |
| Lookup.LookupPlain | foamLookupEntry.C:103-121 | the plain lookup ends with 0 or 4, with 0 exactly when the keyword is stored; the message names the dictionary only when it has a name; `PlainFindsStored` and `PlainMissing` state the output |
| Lookup.LookupDotted | foamLookupEntry.C:124-162 | the reference dotted lookup ends with 0, 4 or 8: 8 exactly when the descent fails, and 0 only when the terminal keyword is stored where the descent ends; `DottedFollowsPath`, `TerminalMissing` and `SuccessPrintsStoredEntry` state the rest |
| Lookup.LookupKey | foamLookupEntry.C:92-99 | the lookup `main` dispatches to ends with 0, 4 or 8, never 8 for a dot-free key, and prints a value without a diagnostic on success; `LookupKeyOutcome` and `DispatchByDot` state the rest |
| Lookup.PlainKeyFound | foamLookupEntry.C:92-121 | every dot-free keyword stored in the dictionary is found by the program's dispatch and printed |
| Lookup.DottedKeywordNotConsulted | foamLookupEntry.C:92-162 | a key that contains a dot always goes to the dotted lookup, which descends at least one level and then looks up a terminal keyword different from the key, so a binding of the dotted key itself is never the one consulted |
| Lookup.DottedKeywordUnreachable | foamLookupEntry.C:92-147 | a stored keyword that contains a dot, whose part before the first dot names no sub-dictionary, makes the lookup exit with 8 |
| Lookup.DottedKeywordExample | foamLookupEntry.C:92-147 | on `{ a.b 5; }`, which stores the keyword `a.b`, key `a.b` exits with 8 |
| Lookup.DottedKeywordShadowedExample | foamLookupEntry.C:92-162 | on `{ a.b 5; a { b 6; } }`, key `a.b` exits with 0 and prints 6, the entry of `b` in sub-dictionary `a`, not the 5 stored under `a.b` |
| Lookup.LookupDottedKeyword | foamLookupEntry.C:124-162 | the loop, with its `find` and substring operations, gives the same status, output and diagnostic as the split-then-descend reference definition |
| Lookup.PlainFindsStored | foamLookupEntry.C:103-121 | a plain keyword stored in the dictionary gives status 0, prints the rendering of its stored entry, and writes no diagnostic |
| Lookup.PlainMissing | foamLookupEntry.C:105-117 | a plain keyword stored nowhere gives status 4 and no output; the message names the dictionary only if it has a name, and batch mode withholds it |
| Lookup.FirstFailure | foamLookupEntry.C:136-147 | a segment that is not a sub-dictionary of the dictionary reached so far makes the whole descent fail at that segment, whatever follows |
| Lookup.StuckAtFirstFailure | foamLookupEntry.C:136-147 | a failed descent failed at a segment whose predecessors all resolved and which itself names no sub-dictionary there |
| Lookup.StuckIgnoresRest | foamLookupEntry.C:140-147 | once a segment fails, segments after it change nothing |
| Lookup.DottedFollowsPath | foamLookupEntry.C:124-162 | looking up the dotted form of a path is descending through its segments in order, then looking up its last part: status 8 on a failed descent, 4 if the last part is absent, otherwise success with its entry |
| Lookup.TerminalMissing | foamLookupEntry.C:150-158 | a terminal keyword absent from the dictionary reached gives status 4 and no output |
| Lookup.LookupKeyOutcome | foamLookupEntry.C:92-162 | every lookup ends with status 0, 4 or 8; a value is printed exactly on success; a diagnostic is written exactly on failure outside batch mode |
| Lookup.Compositional | foamLookupEntry.C:92-162 | when `a` names a sub-dictionary, looking up `a.rest` gives the same status and output as looking up `rest` in that sub-dictionary, and the same run altogether in batch mode, when `rest` is dotted, or when `rest` is found; a missing plain `rest` is reported in the dotted lookup's wording, always naming the sub-dictionary (line 155), against the plain lookup's, which names it only when it has a name (lines 109-114) |
| Lookup.SuccessPrintsStoredEntry | foamLookupEntry.C:119-120 | a successful lookup prints the entry stored under the terminal keyword in the dictionary its segments lead to, as `Render` (`writeEntry`) renders it, and writes nothing to standard error |
| Driver.Root | foamLookupEntry.C:66-87 | the dictionary searched keeps the parsed bindings and the tree invariant; its name is the `-dict` path, and empty when read from standard input |
| Driver.Main | foamLookupEntry.C:55-99 | `main` exits with 0, 1, 2, 4 or 8, and in batch mode never writes to standard error; `ExitStatusPrecedence`, `BatchOnlySilences` and `DispatchByDot` state the rest |
| Driver.ExitStatusPrecedence | foamLookupEntry.C:55-99 | status 1 exactly when `-key` is missing, whatever else holds, and then the usage text is printed on standard output outside batch mode and nothing in it; status 2 exactly when a key is given but the dictionary file is missing; an empty line is printed exactly in that case; every other run ends with 0, 4 or 8 |
| Driver.BatchOnlySilences | foamLookupEntry.C:55-78 | batch mode never changes the exit status; without `-key` it withholds the usage text that `printUsage` writes to standard output; with a key, standard output is the same in both modes and batch mode only withholds the diagnostic, which is otherwise written on every failure |
| Driver.DispatchByDot | foamLookupEntry.C:89-99 | a key without a dot goes to the plain lookup, and a key with at least one dot goes to the dotted lookup |
| Driver.ExampleFound | foamLookupEntry.C:124-181 | on `a { b { c 5; } }`, key `a.b.c` prints the token 5 with status 0 |
| Driver.ExampleKeyMissing | foamLookupEntry.C:150-158 | on `a { b { c 5; } }`, key `a.b.d` gives status 4 |
| Driver.ExampleSubDictMissing | foamLookupEntry.C:136-147 | on `a { b { c 5; } }`, key `a.x.c` gives status 8 |

## Left out

- The dictionary parser and the input streams (`dictionary::read`, `IFstream`, `Sin`, foamLookupEntry.C:80-87) belong to the OpenFOAM library. The model takes the parsed tree as an input. Its name is set as on line 81, and it is unnamed when read from standard input.
- Command-line parsing and the file-existence test (foamLookupEntry.C:38-53, 69) are library I/O. They enter the model as the abstract `Invocation`.
- Driver.ExitStatusPrecedence: holds only for runs whose command line was accepted and whose dictionary was read. The library's fatal errors while parsing the command line (`argList`, foamLookupEntry.C:53) or reading the dictionary (`dict.read`, foamLookupEntry.C:82, 86) are not modelled. An `#include` of a missing file is one example. Such an error writes a message to standard error and ends the run with the library's own status, which is also 1, whatever `-batch` says. So status 1 does not by itself mean that `-key` was missing.
- Driver.Main: the same library fatal errors are outside the model, so its "batch mode writes nothing to standard error" holds only for runs whose dictionary was read.
- Driver.BatchOnlySilences: the same restriction applies. A library fatal error writes to standard error even in batch mode.
- The wording of the usage text (foamLookupEntry.C:61) is the library's. The model records only that it is written, to standard output, as `UsageText`.
- Lookup.Compositional: no longer claims equal diagnostics when the sub-dictionary has a name and a plain `rest` is missing. The two lookups word that message differently (foamLookupEntry.C:114 and 155), so the lemma states each of the two messages instead.
- Keywords are matched exactly. The library's regular-expression keywords and the search of enclosing scopes by `lookupEntry(key, true, true)` are not modelled. The program checks `found` on the same dictionary first, so the scope search never changes which entry is found for an exact keyword.
- Textual formats are not modelled. This covers how a token and a serialised dictionary are printed (foamLookupEntry.C:171, 175) and the wording of the diagnostics. Output is an abstract `Rendering`, and a diagnostic is a `Diagnostic` value. Messages the program words differently get different constructors, so the plain lookup's "not found" message (`KeyNotFound`, foamLookupEntry.C:109-114) and the dotted lookup's (`KeyNotFoundIn`, foamLookupEntry.C:154-156) are never equal.
- Reading a token from an empty stream (foamLookupEntry.C:170) is defined by the library. `WellFormed` requires every stream to hold at least one token.
- The last branch of `writeEntry` (foamLookupEntry.C:177-180) covers entries that are neither a stream nor a dictionary. The model's `Entry` has only those two kinds, so that branch does not arise.
- Round-tripping a printed sub-dictionary through the parser depends on the parser, which is not part of this model.

=== FILE: dictionaries.dfy ===
/**
  The parsed dictionary tree that foamLookupEntry queries.

  A dictionary is an optional name (the empty string means "no name", as the
  program tests `dict.name() != ""`) and an ordered sequence of bindings from
  a keyword to an entry. An entry is either a token stream or a nested
  dictionary. Keywords are matched exactly; the library's regular-expression
  keywords and its search of enclosing scopes are not modelled.
 */
module Dictionaries {
  import opened Wrappers

  /** The textual form of one token, as the tokeniser delivers it. */
  type Token = string

  datatype Entry =
    | Stream(tokens: seq<Token>)
    | Dict(dict: Dictionary)

  datatype Binding = Binding(key: string, entry: Entry)

  datatype Dictionary = Dictionary(name: string, bindings: seq<Binding>)

  /** True iff some binding of `bs` carries keyword `key`. */
  ghost predicate HasKey(bs: seq<Binding>, key: string) {
    exists i | 0 <= i < |bs| :: bs[i].key == key
  }

  /** No keyword is bound twice in the same dictionary. */
  ghost predicate UniqueKeys(bs: seq<Binding>) {
    forall i, j | 0 <= i < j < |bs| :: bs[i].key != bs[j].key
  }

  /** The invariant of a parsed tree: keywords are unique within every
      dictionary, and every stream holds at least one token (reading a token
      from an empty stream is left to the library). */
  ghost predicate WellFormed(d: Dictionary)
    decreases d
  {
    && UniqueKeys(d.bindings)
    && forall i | 0 <= i < |d.bindings| :: WellFormedEntry(d.bindings[i].entry)
  }

  ghost predicate WellFormedEntry(e: Entry)
    decreases e
  {
    match e
    case Stream(ts) => |ts| > 0
    case Dict(sub) => WellFormed(sub)
  }

  /** The entry bound to `key`: the first binding with that keyword. */
  function Find(bs: seq<Binding>, key: string): (r: Option<Entry>)
    ensures r.Some? <==> HasKey(bs, key)
    ensures r.Some? ==> Binding(key, r.value) in bs
  {
    if |bs| == 0 then None
    else if bs[0].key == key then Some(bs[0].entry)
    else
      var r := Find(bs[1..], key);
      assert forall i | 1 <= i < |bs| :: bs[i] == bs[1..][i - 1];
      r
  }

  /** In a dictionary with unique keywords the lookup answers exactly the
      stored binding: no false "not found" and no other entry. */
  lemma FindStored(bs: seq<Binding>, key: string, e: Entry)
    requires UniqueKeys(bs)
    ensures Find(bs, key) == Some(e) <==> Binding(key, e) in bs
  {
  }

  /** `dict.found(key)` with exact matching in this dictionary only. */
  predicate Found(d: Dictionary, key: string)
    ensures Found(d, key) <==> HasKey(d.bindings, key)
  {
    Find(d.bindings, key).Some?
  }

  /** `dict.isDict(key)`: the keyword is bound to a sub-dictionary. */
  predicate IsDict(d: Dictionary, key: string)
    ensures IsDict(d, key) ==> Found(d, key)
    ensures UniqueKeys(d.bindings) ==>
      (IsDict(d, key) <==> exists sub :: Binding(key, Dict(sub)) in d.bindings)
  {
    match Find(d.bindings, key)
    case Some(Dict(_)) => true
    case _ => false
  }

  /** A stored entry of a well-formed dictionary is well-formed. */
  lemma StoredEntryWellFormed(d: Dictionary, b: Binding)
    requires WellFormed(d)
    requires b in d.bindings
    ensures WellFormedEntry(b.entry)
  {
  }

  /** `dict.lookupEntry(key, ...)` for a keyword known to be present. */
  function LookupEntry(d: Dictionary, key: string): (e: Entry)
    requires Found(d, key)
    ensures Binding(key, e) in d.bindings
    ensures WellFormed(d) ==> WellFormedEntry(e)
  {
    var e := Find(d.bindings, key).value;
    assert WellFormed(d) ==> WellFormedEntry(e) by {
      if WellFormed(d) { StoredEntryWellFormed(d, Binding(key, e)); }
    }
    e
  }

  /** `dict.subDictPtr(key)` for a keyword known to name a sub-dictionary. */
  function SubDict(d: Dictionary, key: string): (sub: Dictionary)
    requires IsDict(d, key)
    ensures Binding(key, Dict(sub)) in d.bindings
    ensures WellFormed(d) ==> WellFormed(sub)
  {
    var e := Find(d.bindings, key).value;
    assert WellFormed(d) ==> WellFormedEntry(e) by {
      if WellFormed(d) { StoredEntryWellFormed(d, Binding(key, e)); }
    }
    e.dict
  }

  /** What `writeEntry` prints, as an abstract value: the textual formats of
      a token and of a serialised dictionary are the library's. */
  datatype Rendering = TokenText(token: Token) | DictText(dict: Dictionary)

  /** `writeEntry`: a stream prints the first token read from it, a
      dictionary prints itself. */
  function Render(e: Entry): (r: Rendering)
    requires WellFormedEntry(e)
    ensures r.DictText? <==> e.Dict?
    ensures r.TokenText? ==> r.token in e.tokens
  {
    match e
    case Stream(ts) => TokenText(ts[0])
    case Dict(sub) => DictText(sub)
  }
}

=== FILE: driver.dfy ===
/**
  The `main` of foamLookupEntry, over abstract inputs. Parsing the
  command line, testing whether the dictionary file exists and parsing the
  dictionary text are done by the OpenFOAM library; the model receives their
  results: whether `-key` was given, where the dictionary comes from (and
  whether that file exists), the batch flag, and the parsed tree.
 */
module Driver {
  import opened Wrappers
  import opened Dictionaries
  import opened KeyPath
  import opened Lookup

  const MissingKeyOptionStatus: int := 1
  const DictFileMissingStatus: int := 2

  /** Where the dictionary text is read from: standard input, or the file
      named by `-dict`, together with whether that file exists. */
  datatype Source = StandardInput | File(path: string, present: bool)

  datatype Invocation = Invocation(key: Option<string>, source: Source, batch: bool)

  /** The dictionary that is searched: the parsed tree, named after the file
      it was read from, or unnamed when it came from standard input. */
  function Root(source: Source, parsed: Dictionary): (root: Dictionary)
    ensures root.bindings == parsed.bindings
    ensures root.name == (if source.File? then source.path else "")
    ensures WellFormed(parsed) ==> WellFormed(root)
  {
    match source
    case StandardInput => parsed.(name := "")
    case File(path, _) => parsed.(name := path)
  }

  /** `main`: a missing `-key` first, then a missing dictionary file, then
      the lookup, plain or dotted according to whether the key has a dot.
      Outside batch mode a missing `-key` prints the usage text, which the
      library's `printUsage` writes to standard output. */
  function Main(inv: Invocation, parsed: Dictionary): (r: Run)
    requires WellFormed(parsed)
    ensures r.status in {Success, MissingKeyOptionStatus, DictFileMissingStatus,
                         KeyNotFoundStatus, SubDictNotFoundStatus}
    ensures inv.batch ==> r.stderr == None
  {
    if inv.key.None? then
      Run(MissingKeyOptionStatus, if inv.batch then Nothing else UsageText, None)
    else if inv.source.File? && !inv.source.present then
      Run(DictFileMissingStatus, EmptyLine, Report(inv.batch, FileNotFound(inv.source.path)))
    else
      LookupKey(Root(inv.source, parsed), inv.key.value, inv.batch)
  }

  /** The error precedence of `main`: status 1 exactly when `-key` is
      missing, whatever else is wrong, and then only the usage text is
      printed, outside batch mode; status 2 exactly when a key is given but
      the named dictionary file does not exist, and then, and only then, an
      empty line is printed; every other run ends with 0, 4 or 8. */
  lemma ExitStatusPrecedence(inv: Invocation, parsed: Dictionary)
    requires WellFormed(parsed)
    ensures var r := Main(inv, parsed);
      && (r.status == MissingKeyOptionStatus <==> inv.key.None?)
      && (r.status == MissingKeyOptionStatus ==>
            r.stdout == (if inv.batch then Nothing else UsageText) && r.stderr == None)
      && (r.stdout == UsageText <==> r.status == MissingKeyOptionStatus && !inv.batch)
      && (r.status == DictFileMissingStatus <==>
            inv.key.Some? && inv.source.File? && !inv.source.present)
      && (r.stdout == EmptyLine <==> r.status == DictFileMissingStatus)
      && (inv.key.Some? && (inv.source.File? ==> inv.source.present) ==>
            r.status in {Success, KeyNotFoundStatus, SubDictNotFoundStatus})
  {
  }

  /** Batch mode never changes the exit status. It withholds the usage
      text of a missing `-key`, and the diagnostic that is otherwise written
      on every failure of a run with a key; with a key, standard output is
      the same in both modes. */
  lemma BatchOnlySilences(inv: Invocation, parsed: Dictionary)
    requires WellFormed(parsed)
    ensures var quiet := Main(inv.(batch := true), parsed);
      var loud := Main(inv.(batch := false), parsed);
      && quiet.status == loud.status
      && quiet.stderr == None
      && (inv.key.Some? ==> quiet.stdout == loud.stdout)
      && (inv.key.Some? ==> (loud.stderr.Some? <==> loud.status != Success))
      && (inv.key.None? ==>
            quiet.stdout == Nothing && loud.stdout == UsageText && loud.stderr == None)
  {
  }

  /** A key without a dot is looked up as a plain keyword; a key with at
      least one dot is resolved segment by segment. */
  lemma DispatchByDot(inv: Invocation, parsed: Dictionary)
    requires WellFormed(parsed)
    requires inv.key.Some?
    requires inv.source.File? ==> inv.source.present
    ensures Dot !in inv.key.value ==>
      Main(inv, parsed) == LookupPlain(Root(inv.source, parsed), inv.key.value, inv.batch)
    ensures Dot in inv.key.value ==>
      Main(inv, parsed) == LookupDotted(Root(inv.source, parsed), inv.key.value, inv.batch)
  {
  }

  /** The dictionary `a { b { c 5; } }`, its sub-dictionary `a` and its
      sub-sub-dictionary `a.b`. */
  function ExampleB(): Dictionary {
    Dictionary("b", [Binding("c", Stream(["5"]))])
  }

  function ExampleA(): Dictionary {
    Dictionary("a", [Binding("b", Dict(ExampleB()))])
  }

  function Example(): Dictionary {
    Dictionary("", [Binding("a", Dict(ExampleA()))])
  }

  /** The descent through `a` and `b` reaches the innermost dictionary. */
  lemma ExampleDescent()
    ensures WellFormed(Example())
    ensures Descend(Example(), ["a", "b"]) == Reached(ExampleB())
  {
  }

  /** On the example, read from standard input, a dotted key is looked up
      by the dotted lookup in the unnamed root. */
  lemma ExampleDotted(key: string, batch: bool)
    requires Dot in key
    ensures WellFormed(Example())
    ensures Main(Invocation(Some(key), StandardInput, batch), Example())
      == LookupDotted(Example(), key, batch)
  {
  }

  /** A key of three one-character parts splits at its two dots. */
  lemma ExampleSplit(a: char, b: char, c: char)
    requires a != Dot && b != Dot && c != Dot
    ensures Dot in [a, Dot, b, Dot, c]
    ensures Split([a, Dot, b, Dot, c]) == Path([[a], [b]], [c])
  {
    var p := Path([[a], [b]], [c]);
    assert [[a], [b]][1..] == [[b]];
    assert Join(Path([[b]], [c])) == [b, Dot, c];
    assert Join(p) == [a, Dot, b, Dot, c];
    assert DotFree(p);
    SplitJoin(p);
  }

  /** Key `a.b.c` prints the token 5 with status 0. */
  lemma ExampleFound(batch: bool)
    ensures WellFormed(Example())
    ensures Main(Invocation(Some("a.b.c"), StandardInput, batch), Example())
      == Run(Success, Line(TokenText("5")), None)
  {
    ExampleDescent();
    ExampleSplit('a', 'b', 'c');
    ExampleDotted("a.b.c", batch);
    assert Split("a.b.c") == Path(["a", "b"], "c");
    assert Found(ExampleB(), "c") && LookupEntry(ExampleB(), "c") == Stream(["5"]);
  }

  /** Key `a.b.d` gives status 4: `d` is not in `a.b`. */
  lemma ExampleKeyMissing(batch: bool)
    ensures WellFormed(Example())
    ensures Main(Invocation(Some("a.b.d"), StandardInput, batch), Example()).status
      == KeyNotFoundStatus
  {
    ExampleDescent();
    ExampleSplit('a', 'b', 'd');
    ExampleDotted("a.b.d", batch);
    assert Split("a.b.d") == Path(["a", "b"], "d");
    assert Find(ExampleB().bindings[1..], "d") == None;
    assert !Found(ExampleB(), "d");
  }

  /** The descent through `a` and `x` stops at `x`. */
  lemma ExampleStuck()
    ensures Descend(Example(), ["a", "x"]) == Stuck("x")
  {
  }

  /** Key `a.x.c` gives status 8: `a` has no sub-dictionary `x`. */
  lemma ExampleSubDictMissing(batch: bool)
    ensures WellFormed(Example())
    ensures Main(Invocation(Some("a.x.c"), StandardInput, batch), Example()).status
      == SubDictNotFoundStatus
  {
    ExampleStuck();
    ExampleSplit('a', 'x', 'c');
    ExampleDotted("a.x.c", batch);
    assert Split("a.x.c") == Path(["a", "x"], "c");
    assert LookupDotted(Example(), "a.x.c", batch).status == SubDictNotFoundStatus;
  }
}

=== FILE: key_path.dfy ===
/**
  Dotted keywords. `a.b.c.d` names keyword `d` in sub-dictionary `c` of
  sub-dictionary `b` of sub-dictionary `a`. The program takes such a key
  apart with OpenFOAM's string operations: `count`, `find`, `s(n)` (the
  first `n` characters) and `s(i, len)` (the `len` characters from `i`).
 */
module KeyPath {

  const Dot: char := '.'

  /** `s.count(c)`: the number of occurrences of `c` in `s`. */
  function Count(s: string, c: char): (n: nat)
    ensures n <= |s|
    ensures n == 0 <==> c !in s
  {
    if |s| == 0 then 0
    else
      assert c in s <==> s[0] == c || c in s[1..];
      (if s[0] == c then 1 else 0) + Count(s[1..], c)
  }

  lemma {:induction false} CountConcat(a: string, b: string, c: char)
    ensures Count(a + b, c) == Count(a, c) + Count(b, c)
  {
    if |a| == 0 {
      assert a + b == b;
    } else {
      assert (a + b)[1..] == a[1..] + b;
      CountConcat(a[1..], b, c);
    }
  }

  /** `s.find(c)` for a character known to occur: the position of its first
      occurrence. */
  function IndexOf(s: string, c: char): (i: nat)
    requires c in s
    ensures i < |s| && s[i] == c
    ensures c !in s[..i]
  {
    if s[0] == c then 0
    else
      assert c in s[1..];
      var i := IndexOf(s[1..], c);
      assert s[..i + 1] == [s[0]] + s[1..][..i];
      i + 1
  }

  function Min(a: int, b: int): int {
    if a <= b then a else b
  }

  /** `s(n)`: the first `n` characters, or all of `s` if it is shorter. */
  function Take(s: string, n: nat): (r: string)
    ensures r <= s
    ensures |r| == Min(n, |s|)
  {
    s[..Min(n, |s|)]
  }

  /** `s(i, len)`: up to `len` characters starting at position `i`. */
  function Substr(s: string, i: nat, len: nat): (r: string)
    requires i <= |s|
    ensures |r| == Min(len, |s| - i)
    ensures forall k | 0 <= k < |r| :: r[k] == s[i + k]
  {
    s[i..Min(i + len, |s|)]
  }

  /** One turn of the splitting loop: the text before the first dot and the
      text after it. */
  function SplitFirst(key: string): (r: (string, string))
    requires Dot in key
    ensures key == r.0 + [Dot] + r.1
    ensures Dot !in r.0
    ensures Count(r.1, Dot) + 1 == Count(key, Dot)
  {
    var idx := IndexOf(key, Dot);
    CutAt(key, idx);
    (Take(key, idx), Substr(key, idx + 1, |key| - idx - 1))
  }

  /** Cutting a key around the dot at `idx` leaves the text before it, the
      dot, and the text after it, which holds one dot fewer. */
  lemma CutAt(key: string, idx: nat)
    requires idx < |key| && key[idx] == Dot
    requires Dot !in key[..idx]
    ensures Dot !in Take(key, idx)
    ensures key == Take(key, idx) + [Dot] + Substr(key, idx + 1, |key| - idx - 1)
    ensures Count(Substr(key, idx + 1, |key| - idx - 1), Dot) + 1 == Count(key, Dot)
  {
    var before := Take(key, idx);
    var after := Substr(key, idx + 1, |key| - idx - 1);
    assert key == before + [Dot] + after;
    assert Count([Dot], Dot) == 1 by { assert [Dot][1..] == []; }
    CountConcat(before + [Dot], after, Dot);
    CountConcat(before, [Dot], Dot);
  }

  /** A dotted key taken apart: the sub-dictionary segments to descend
      through, in order, and the keyword to look up at the end. */
  datatype Path = Path(segments: seq<string>, terminal: string)

  /** Repeated `SplitFirst` until no dot is left. There is one segment per
      dot, and no part contains a dot. */
  function Split(key: string): (p: Path)
    ensures |p.segments| == Count(key, Dot)
    ensures DotFree(p)
    decreases |key|
  {
    if Count(key, Dot) == 0 then Path([], key)
    else
      var cut := SplitFirst(key);
      var p := Split(cut.1);
      var r := Path([cut.0] + p.segments, p.terminal);
      assert DotFree(r) by {
        forall i | 0 <= i < |r.segments|
          ensures Dot !in r.segments[i]
        {
          if i > 0 { assert r.segments[i] == p.segments[i - 1]; }
        }
      }
      r
  }

  /** Splitting a key with a dot cuts it once and splits the rest. */
  lemma SplitUnfold(key: string)
    requires Count(key, Dot) > 0
    ensures Split(key) ==
      Path([SplitFirst(key).0] + Split(SplitFirst(key).1).segments, Split(SplitFirst(key).1).terminal)
  {
  }

  /** One turn of the splitting loop, written with the string operations
      the program uses, peels the first segment off the split key. */
  lemma SplitStep(key: string, idx: nat)
    requires Count(key, Dot) > 0
    requires idx == IndexOf(key, Dot)
    ensures Split(key) == Path([Take(key, idx)] + Split(Substr(key, idx + 1, |key| - idx - 1)).segments,
                               Split(Substr(key, idx + 1, |key| - idx - 1)).terminal)
  {
    SplitUnfold(key);
    assert SplitFirst(key) == (Take(key, idx), Substr(key, idx + 1, |key| - idx - 1));
  }

  /** No part of the path contains a dot. */
  ghost predicate DotFree(p: Path) {
    && Dot !in p.terminal
    && forall i | 0 <= i < |p.segments| :: Dot !in p.segments[i]
  }

  /** The dotted key a path is written as: its parts joined by dots. */
  function Join(p: Path): (key: string)
    ensures DotFree(p) ==> Count(key, Dot) == |p.segments|
    decreases |p.segments|
  {
    if |p.segments| == 0 then p.terminal
    else
      var tail := Path(p.segments[1..], p.terminal);
      var key := p.segments[0] + [Dot] + Join(tail);
      assert DotFree(p) ==> DotFree(tail) by {
        if DotFree(p) { DotFreeTail(p); }
      }
      assert Count([Dot], Dot) == 1 by { assert [Dot][1..] == []; }
      CountConcat(p.segments[0] + [Dot], Join(tail), Dot);
      CountConcat(p.segments[0], [Dot], Dot);
      key
  }

  /** Joining the parts of a split key gives the key back. */
  lemma {:induction false} JoinSplit(key: string)
    ensures Join(Split(key)) == key
    decreases |key|
  {
    if Count(key, Dot) != 0 {
      var (segment, rest) := SplitFirst(key);
      JoinSplit(rest);
      assert Split(key).segments[1..] == Split(rest).segments;
    }
  }

  /** The first dot of `s + [Dot] + t` is the one after `s` when `s` has none. */
  lemma {:induction false} SplitFirstJoined(s: string, t: string)
    requires Dot !in s
    ensures SplitFirst(s + [Dot] + t) == (s, t)
  {
    var key := s + [Dot] + t;
    var idx := IndexOf(key, Dot);
    assert key[|s|] == Dot;
    assert idx == |s|;
    assert Take(key, idx) == s;
    assert Substr(key, idx + 1, |key| - idx - 1) == t;
  }

  /** Splitting the joined form of a dot-free path gives the path back. */
  lemma {:induction false} SplitJoin(p: Path)
    requires DotFree(p)
    ensures Split(Join(p)) == p
    decreases |p.segments|
  {
    if |p.segments| == 0 {
      assert Count(p.terminal, Dot) == 0;
    } else {
      var tail := Path(p.segments[1..], p.terminal);
      DotFreeTail(p);
      SplitJoin(tail);
      SplitJoinStep(p.segments[0], tail);
      assert Join(p) == p.segments[0] + [Dot] + Join(tail);
      assert [p.segments[0]] + tail.segments == p.segments;
    }
  }

  /** Dropping the first segment keeps a path dot-free. */
  lemma DotFreeTail(p: Path)
    requires DotFree(p)
    requires |p.segments| > 0
    ensures DotFree(Path(p.segments[1..], p.terminal))
  {
    forall i | 0 <= i < |p.segments| - 1
      ensures Dot !in p.segments[1..][i]
    {
      assert p.segments[1..][i] == p.segments[i + 1];
    }
  }

  /** A dot-free segment written in front of a key that splits back into
      `tail` becomes the first segment. */
  lemma SplitJoinStep(segment: string, tail: Path)
    requires Dot !in segment
    requires DotFree(tail)
    requires Split(Join(tail)) == tail
    ensures Split(segment + [Dot] + Join(tail)) == Path([segment] + tail.segments, tail.terminal)
  {
    var key := segment + [Dot] + Join(tail);
    assert key[|segment|] == Dot;
    SplitUnfold(key);
    SplitFirstJoined(segment, Join(tail));
  }

}

=== FILE: lookup.dfy ===
/**
  Looking a key up in a parsed dictionary: `lookupPlainKeyword`,
  `lookupDottedKeyword` and the choice between them. Every lookup ends in a
  `Run`: the exit status, what goes to standard output and the diagnostic
  that goes to standard error unless batch mode silences it.
 */
module Lookup {
  import opened Wrappers
  import opened Dictionaries
  import opened KeyPath

  const Success: int := 0
  const KeyNotFoundStatus: int := 4        // 1 << 2
  const SubDictNotFoundStatus: int := 8    // 1 << 3

  /** The diagnostics the program can write to standard error. Their exact
      wording is not modelled, but each message the program words
      differently has its own constructor: `KeyNotFound` is the plain
      lookup's message, whose `context` is the dictionary name it mentions,
      if any; `KeyNotFoundIn` is the dotted lookup's message, which always
      names the dictionary reached, even when that name is empty. */
  datatype Diagnostic =
    | FileNotFound(path: string)
    | KeyNotFound(key: string, context: Option<string>)
    | KeyNotFoundIn(key: string, dictName: string)
    | SubDictNotFound(segment: string)

  /** Standard output: nothing, an empty line, the usage text (which the
      library's `printUsage` writes to standard output), or one rendered
      value on a line of its own. */
  datatype Stdout = Nothing | EmptyLine | UsageText | Line(value: Rendering)

  datatype Run = Run(status: int, stdout: Stdout, stderr: Option<Diagnostic>)

  /** A diagnostic is written only outside batch mode. */
  function Report(batch: bool, diagnostic: Diagnostic): Option<Diagnostic> {
    if batch then None else Some(diagnostic)
  }

  /** Success: `writeEntry` on the entry found, status 0. */
  function Succeed(e: Entry): Run
    requires WellFormedEntry(e)
  {
    Run(Success, Line(Render(e)), None)
  }

  /** `lookupPlainKeyword`: the key is looked up in `d` itself. The message
      names the dictionary only when it has a name. */
  function LookupPlain(d: Dictionary, key: string, batch: bool): (r: Run)
    requires WellFormed(d)
    ensures r.status in {Success, KeyNotFoundStatus}
    ensures r.status == Success <==> HasKey(d.bindings, key)
  {
    if !Found(d, key) then
      var context := if d.name != "" then Some(d.name) else None;
      Run(KeyNotFoundStatus, Nothing, Report(batch, KeyNotFound(key, context)))
    else
      Succeed(LookupEntry(d, key))
  }

  /** Where a descent through sub-dictionaries ends: in a dictionary, or at
      the first segment that does not name a sub-dictionary. */
  datatype Walk = Reached(dict: Dictionary) | Stuck(segment: string)

  /** Descend from `d` through the sub-dictionaries named by `segments`, in
      order, stopping at the first segment that names none. */
  function Descend(d: Dictionary, segments: seq<string>): (w: Walk)
    ensures WellFormed(d) && w.Reached? ==> WellFormed(w.dict)
    ensures w.Stuck? ==> w.segment in segments
  {
    if |segments| == 0 then Reached(d)
    else if IsDict(d, segments[0]) then
      var w := Descend(SubDict(d, segments[0]), segments[1..]);
      assert w.Stuck? ==> w.segment in segments by {
        if w.Stuck? {
          var i :| 0 <= i < |segments[1..]| && segments[1..][i] == w.segment;
          assert segments[i + 1] == w.segment;
        }
      }
      w
    else Stuck(segments[0])
  }

  /** `lookupDottedKeyword`, stated over the split key: descend through the
      segments, then look the terminal keyword up where the descent ended. */
  function LookupDotted(d: Dictionary, key: string, batch: bool): (r: Run)
    requires WellFormed(d)
    ensures r.status in {Success, KeyNotFoundStatus, SubDictNotFoundStatus}
    ensures r.status == SubDictNotFoundStatus <==> Descend(d, Split(key).segments).Stuck?
    ensures r.status == Success ==>
      HasKey(Descend(d, Split(key).segments).dict.bindings, Split(key).terminal)
  {
    var path := Split(key);
    match Descend(d, path.segments)
    case Stuck(segment) =>
      Run(SubDictNotFoundStatus, Nothing, Report(batch, SubDictNotFound(segment)))
    case Reached(sub) =>
      if !Found(sub, path.terminal) then
        Run(KeyNotFoundStatus, Nothing, Report(batch, KeyNotFoundIn(path.terminal, sub.name)))
      else
        Succeed(LookupEntry(sub, path.terminal))
  }

  /** The dispatch of `main`: a key without a dot is a plain keyword. */
  function LookupKey(d: Dictionary, key: string, batch: bool): (r: Run)
    requires WellFormed(d)
    ensures r.status in {Success, KeyNotFoundStatus, SubDictNotFoundStatus}
    ensures Dot !in key ==> r.status != SubDictNotFoundStatus
    ensures r.status == Success ==> r.stderr == None && r.stdout.Line?
  {
    if Count(key, Dot) == 0 then LookupPlain(d, key, batch)
    else LookupDotted(d, key, batch)
  }

  /** A descent through `p + q` is a descent through `p` followed, if it
      reached a dictionary, by a descent through `q` from there. */
  lemma {:induction false} DescendAppend(d: Dictionary, p: seq<string>, q: seq<string>)
    ensures Descend(d, p + q) ==
      match Descend(d, p)
      case Reached(sub) => Descend(sub, q)
      case Stuck(s) => Stuck(s)
  {
    if |p| > 0 {
      assert (p + q)[0] == p[0];
      assert (p + q)[1..] == p[1..] + q;
      if IsDict(d, p[0]) {
        DescendAppend(SubDict(d, p[0]), p[1..], q);
      }
    } else {
      assert p + q == q;
    }
  }

  /** Concatenation regroups freely. */
  lemma AppendAssoc<T>(a: seq<T>, b: seq<T>, c: seq<T>)
    ensures a + (b + c) == (a + b) + c
  {
  }

  /** One step of the descent loop: from the dictionary `consumed` leads
      to, descend into `segment` or fail there. */
  lemma DescendStep(d: Dictionary, consumed: seq<string>, segment: string, rest: seq<string>)
    requires Descend(d, consumed).Reached?
    ensures var current := Descend(d, consumed).dict;
      && (IsDict(current, segment) ==>
            Descend(d, consumed + [segment]) == Reached(SubDict(current, segment)))
      && (!IsDict(current, segment) ==>
            Descend(d, consumed + ([segment] + rest)) == Stuck(segment))
  {
    DescendAppend(d, consumed, [segment]);
    DescendAppend(d, consumed, [segment] + rest);
  }

  /** `lookupDottedKeyword` as the program runs it: a loop that cuts the
      text before the first dot off the key, descends into the
      sub-dictionary it names, and finally looks the remaining key up. */
  method LookupDottedKeyword(d: Dictionary, key: string, batch: bool) returns (r: Run)
    requires WellFormed(d)
    ensures r == LookupDotted(d, key, batch)
  {
    var localKey := key;
    var current := d;
    ghost var consumed: seq<string> := [];
    while Count(localKey, Dot) > 0
      invariant WellFormed(current)
      invariant Split(key) == Path(consumed + Split(localKey).segments, Split(localKey).terminal)
      invariant Descend(d, consumed) == Reached(current)
      decreases |localKey|
    {
      var idx := IndexOf(localKey, Dot);
      var segment := Take(localKey, idx);
      var rest := Substr(localKey, idx + 1, |localKey| - idx - 1);
      SplitStep(localKey, idx);
      DescendStep(d, consumed, segment, Split(rest).segments);
      localKey := rest;
      if IsDict(current, segment) {
        current := SubDict(current, segment);
        AppendAssoc(consumed, [segment], Split(rest).segments);
        consumed := consumed + [segment];
      } else {
        r := Run(SubDictNotFoundStatus, Nothing, Report(batch, SubDictNotFound(segment)));
        return;
      }
    }
    assert Split(localKey).segments == [];
    assert consumed == Split(key).segments;
    if !Found(current, localKey) {
      r := Run(KeyNotFoundStatus, Nothing, Report(batch, KeyNotFoundIn(localKey, current.name)));
      return;
    }
    r := Succeed(LookupEntry(current, localKey));
  }

  /** A plain keyword bound in `d` is found, and what is printed is the
      rendering of the entry stored under it. */
  lemma PlainFindsStored(d: Dictionary, key: string, e: Entry, batch: bool)
    requires WellFormed(d)
    requires Binding(key, e) in d.bindings
    ensures WellFormedEntry(e)
    ensures LookupPlain(d, key, batch) == Succeed(e)
  {
  }

  /** A plain keyword bound nowhere in `d` gives status 4 and prints nothing;
      the diagnostic names the dictionary only if it has a name. */
  lemma PlainMissing(d: Dictionary, key: string, batch: bool)
    requires WellFormed(d)
    requires forall b | b in d.bindings :: b.key != key
    ensures LookupPlain(d, key, batch) ==
      Run(KeyNotFoundStatus, Nothing,
          Report(batch, KeyNotFound(key, if d.name == "" then None else Some(d.name))))
  {
  }

  /** The descent fails exactly at the first segment that does not name a
      sub-dictionary of the dictionary reached so far; the segments before it
      all did, and the segments after it play no part. */
  lemma FirstFailure(d: Dictionary, segments: seq<string>, i: nat)
    requires i < |segments|
    requires Descend(d, segments[..i]).Reached?
    requires !IsDict(Descend(d, segments[..i]).dict, segments[i])
    ensures Descend(d, segments) == Stuck(segments[i])
  {
    assert segments == segments[..i] + ([segments[i]] + segments[i + 1..]);
    DescendAppend(d, segments[..i], [segments[i]] + segments[i + 1..]);
  }

  /** Conversely, a failed descent failed at some segment in exactly that
      way. */
  lemma {:induction false} StuckAtFirstFailure(d: Dictionary, segments: seq<string>)
    requires Descend(d, segments).Stuck?
    ensures exists i | 0 <= i < |segments| ::
      && segments[i] == Descend(d, segments).segment
      && Descend(d, segments[..i]).Reached?
      && !IsDict(Descend(d, segments[..i]).dict, segments[i])
  {
    if IsDict(d, segments[0]) {
      var sub := SubDict(d, segments[0]);
      StuckAtFirstFailure(sub, segments[1..]);
      var j :| 0 <= j < |segments[1..]|
        && segments[1..][j] == Descend(sub, segments[1..]).segment
        && Descend(sub, segments[1..][..j]).Reached?
        && !IsDict(Descend(sub, segments[1..][..j]).dict, segments[1..][j]);
      DescendAppend(d, [segments[0]], segments[1..][..j]);
      assert segments[..j + 1] == [segments[0]] + segments[1..][..j];
      assert segments[j + 1] == segments[1..][j];
    } else {
      assert segments[..0] == [];
    }
  }

  /** Once a segment fails, no later segment is examined. */
  lemma StuckIgnoresRest(d: Dictionary, p: seq<string>, q: seq<string>)
    requires Descend(d, p).Stuck?
    ensures Descend(d, p + q) == Descend(d, p)
  {
    DescendAppend(d, p, q);
  }

  /** A dotted key written as a dot-free path resolves by descending
      through its segments in order and looking its last part up in the
      dictionary reached. */
  lemma DottedFollowsPath(d: Dictionary, p: Path, batch: bool)
    requires WellFormed(d)
    requires DotFree(p)
    ensures match Descend(d, p.segments)
      case Stuck(s) =>
        LookupDotted(d, Join(p), batch).status == SubDictNotFoundStatus
      case Reached(sub) =>
        && (Found(sub, p.terminal) ==>
              LookupDotted(d, Join(p), batch) == Succeed(LookupEntry(sub, p.terminal)))
        && (!Found(sub, p.terminal) ==>
              LookupDotted(d, Join(p), batch).status == KeyNotFoundStatus)
  {
    SplitJoin(p);
  }

  /** The outcome of any key: status 0, 4 or 8; something is printed
      exactly on success; a diagnostic is written exactly on failure outside
      batch mode. */
  lemma LookupKeyOutcome(d: Dictionary, key: string, batch: bool)
    requires WellFormed(d)
    ensures var r := LookupKey(d, key, batch);
      && r.status in {Success, KeyNotFoundStatus, SubDictNotFoundStatus}
      && (r.status == Success <==> r.stdout.Line?)
      && (r.stdout.Line? || r.stdout.Nothing?)
      && (r.stderr.Some? <==> !batch && r.status != Success)
  {
  }

  /** A terminal keyword absent from the dictionary the descent reached
      gives status 4 and prints nothing. */
  lemma TerminalMissing(d: Dictionary, key: string, batch: bool)
    requires WellFormed(d)
    requires Descend(d, Split(key).segments).Reached?
    requires forall b | b in Descend(d, Split(key).segments).dict.bindings :: b.key != Split(key).terminal
    ensures LookupDotted(d, key, batch).status == KeyNotFoundStatus
    ensures LookupDotted(d, key, batch).stdout == Nothing
  {
  }

  /** Looking `a.rest` up in `d`, where `a` names a sub-dictionary of `d`,
      is looking `rest` up in that sub-dictionary: same status, same output,
      and the same run altogether in batch mode, when `rest` is dotted, or
      when `rest` is found. The one difference is the message for a plain
      `rest` that is missing: the dotted lookup words it as its own
      `KeyNotFoundIn`, always naming the sub-dictionary, while the plain
      lookup writes `KeyNotFound`, naming it only when it has a name. */
  lemma Compositional(d: Dictionary, a: string, rest: string, batch: bool)
    requires WellFormed(d)
    requires Dot !in a
    requires IsDict(d, a)
    ensures var whole := LookupKey(d, a + [Dot] + rest, batch);
      var part := LookupKey(SubDict(d, a), rest, batch);
      && whole.status == part.status
      && whole.stdout == part.stdout
      && (batch || Dot in rest || part.status != KeyNotFoundStatus ==> whole == part)
      && (!batch && Dot !in rest && part.status == KeyNotFoundStatus ==>
            var name := SubDict(d, a).name;
            && whole.stderr == Some(KeyNotFoundIn(rest, name))
            && part.stderr == Some(KeyNotFound(rest, if name == "" then None else Some(name))))
  {
    var key := a + [Dot] + rest;
    assert key[|a|] == Dot;
    SplitFirstJoined(a, rest);
    assert Split(key).segments == [a] + Split(rest).segments;
    DescendAppend(d, [a], Split(rest).segments);
  }

  /** A successful lookup printed the entry stored under the terminal
      keyword in the dictionary the segments lead to (the root itself for a
      plain keyword), and nothing went to standard error. */
  lemma SuccessPrintsStoredEntry(d: Dictionary, key: string, batch: bool)
    requires WellFormed(d)
    requires LookupKey(d, key, batch).status == Success
    ensures Descend(d, Split(key).segments).Reached?
    ensures exists e ::
      && Binding(Split(key).terminal, e) in Descend(d, Split(key).segments).dict.bindings
      && WellFormedEntry(e)
      && LookupKey(d, key, batch).stdout == Line(Render(e))
    ensures LookupKey(d, key, batch).stderr == None
  {
  }

  /** Any keyword without a dot that is bound in `d` is found by the
      dispatching lookup, which prints its entry. */
  lemma PlainKeyFound(d: Dictionary, key: string, e: Entry, batch: bool)
    requires WellFormed(d)
    requires Dot !in key
    requires Binding(key, e) in d.bindings
    ensures WellFormedEntry(e)
    ensures LookupKey(d, key, batch) == Succeed(e)
  {
    PlainFindsStored(d, key, e, batch);
  }

  /** A keyword that itself contains a dot cannot be reached: the key is
      taken apart at its first dot, and if the text before it names no
      sub-dictionary the run ends with status 8, although the keyword is
      bound in `d`. */
  lemma DottedKeywordUnreachable(d: Dictionary, key: string, e: Entry, batch: bool)
    requires WellFormed(d)
    requires Binding(key, e) in d.bindings
    requires Dot in key
    requires !IsDict(d, SplitFirst(key).0)
    ensures LookupKey(d, key, batch).status == SubDictNotFoundStatus
  {
    assert Split(key).segments[0] == SplitFirst(key).0;
  }

  /** Whatever `d` holds, the binding of a keyword that contains a dot is
      never the one consulted: the lookup descends at least one level and
      then looks up a keyword other than `key`. */
  lemma DottedKeywordNotConsulted(d: Dictionary, key: string, batch: bool)
    requires WellFormed(d)
    requires Dot in key
    ensures LookupKey(d, key, batch) == LookupDotted(d, key, batch)
    ensures |Split(key).segments| > 0 && Split(key).terminal != key
  {
    assert Dot !in Split(key).terminal;
  }

  /** The dictionary `{ a.b 5; }`: looking up `a.b` gives status 8. */
  lemma DottedKeywordExample(batch: bool)
    ensures var d := Dictionary("", [Binding(['a', Dot, 'b'], Stream(["5"]))]);
      && WellFormed(d)
      && LookupKey(d, ['a', Dot, 'b'], batch).status == SubDictNotFoundStatus
  {
    var key := ['a', Dot, 'b'];
    var d := Dictionary("", [Binding(key, Stream(["5"]))]);
    assert key[1] == Dot;
    SplitFirstJoined(['a'], ['b']);
    assert ['a'] + [Dot] + ['b'] == key;
    assert Find(d.bindings[1..], ['a']) == None;
    assert d.bindings[0].key != ['a'] by { assert |d.bindings[0].key| == 3; }
    DottedKeywordUnreachable(d, key, Stream(["5"]), batch);
  }
  /** The dictionary `{ a.b 5; a { b 6; } }`: looking up `a.b` does not
      print the 5 bound to `a.b` but the 6 bound to `b` in sub-dictionary
      `a`. */
  lemma DottedKeywordShadowedExample(batch: bool)
    ensures var sub := Dictionary("", [Binding(['b'], Stream(["6"]))]);
      var d := Dictionary("", [Binding(['a', Dot, 'b'], Stream(["5"])), Binding(['a'], Dict(sub))]);
      && WellFormed(d)
      && LookupKey(d, ['a', Dot, 'b'], batch) == Run(Success, Line(TokenText("6")), None)
  {
    var key := ['a', Dot, 'b'];
    var sub := Dictionary("", [Binding(['b'], Stream(["6"]))]);
    var d := Dictionary("", [Binding(key, Stream(["5"])), Binding(['a'], Dict(sub))]);
    assert d.bindings[0].key != ['a'] by { assert |d.bindings[0].key| == 3; }
    assert WellFormed(d) by {
      assert UniqueKeys(d.bindings) by { assert d.bindings[0].key != d.bindings[1].key; }
    }
    assert ['a'] + [Dot] + ['b'] == key;
    assert SubDict(d, ['a']) == sub;
    Compositional(d, ['a'], ['b'], batch);
    PlainKeyFound(sub, ['b'], Stream(["6"]), batch);
  }
}

=== FILE: wrappers.dfy ===
/** The optional value used throughout the model. */
module Wrappers {

  /** A value that may be absent: the model's answer where the program
      tests `found` before it looks an entry up. */
  datatype Option<+T> = None | Some(value: T)
}
